=== FILE: README.md ===
# borealis Application core: navigation, input gating and frame order

This project models the process-wide controller of the borealis UI library,
`brls::Application`. It covers the behaviour that decides what the user sees
and where input goes:

- which views of the view stack a frame draws, in which order, and the
  overlays drawn after them;
- the input-blocking token counter;
- the per-tick button scan, with its edge detection and its shared repeat timer;
- the press gate, action dispatch up the view tree, and directional navigation;
- `giveFocus`;
- the `pushView` and `popView` transitions, with their animation completions;
- `clear`, the framerate-counter switch, and the PLUS exit of the main loop.

The application's global state is one immutable record, `AppState.App`. Every
operation is a pure function or a method from one `App` to the next.

## Modelling choices

- Views are abstract identifiers. Everything the core only *asks* a view is
  supplied by an oracle record, `Views.World`:
  - its parent;
  - its own translucency flag;
  - its action list;
  - `getDefaultFocus`;
  - `getNextFocus(direction, hint)`. The source passes the child's parent
    user data as the hint (lines 481 and 489). The oracle is keyed on the
    child instead, which covers any function of that child's user data.

  A rank function (`depth`) witnesses that parent links form a forest, so
  every walk up the tree ends.
- Calls into views and observers are appended to an event log, `App.events`,
  in the order they happen:
  - focus lost and focus gained;
  - the global focus-change event;
  - shake;
  - will-appear and will-disappear;
  - destruction;
  - listener runs;
  - user callbacks.
- Animations are not simulated. `show`/`hide` record a `Pending` completion
  and update the view's hidden flag. `Stack.Fire` runs any one pending
  completion, in any order. These steps stand for the completions that
  `menu_animation_update` (line 442) runs before `frame` (line 448). The
  `drawn` result of `Input.Tick` is therefore the frame of a tick in which no
  completion runs. The invariant `AppState.Inv` is that the token
  counter equals the number of unblocks the pending completions still owe.
  Pushes, pops and every completion keep it.
- A button is the bit index `i` of its mask `1 << i`. The platform's key
  masks give PLUS 10, MINUS 11, DLEFT 12, DUP 13, DRIGHT 14 and DDOWN 15.
- The wall-clock test that advances the repeat timer (more than 1000 µs since
  the last advance) is a boolean parameter, `clockTicked`. The applet
  status and the sampled pad state are parameters too.
- Application action listeners are `Returns(consumed)`. The two system
  listeners that `pushView` registers are explicit: Exit (PLUS), which calls
  the empty `quit` and consumes, and the framerate toggle (MINUS).

## Behaviour of the code worth knowing

Each item is a fact about `library/lib/application.cpp` that the model keeps.

- The repeat test at line 418 needs the timer above 15 and a multiple of 5.
  Held buttons therefore repeat at timer values 20, 25, 30, …
  (`Input.RepeatSchedule`).
- The shared timer is reset at line 425, after the press at line 421 has
  been dispatched. A button newly pressed on a repeat tick, behind a held
  button earlier in the scan, is dispatched with `repeating` set. The gate at
  line 508 then drops it if the focus has not moved
  (`Input.FreshPressReportedAsRepeat`).
- `handleAction` receives a single button (line 514). Its consumed-key set
  therefore holds at most that button, and the skip at line 548 only affects
  later actions for the same key.
- `popView` gives focus only when the focus stack is non-empty
  (lines 750-758), and otherwise keeps the current focus. The focus-stack
  entry is given focus with no check that its view still exists.
- `popView` checks the stack size at line 702 but removes the top at
  line 717, when the hide completes. Under the completion assumption listed
  under "Left out", two overlapping pops on a two-view stack therefore empty
  the stack (`Stack.OverlappingPopsRemoveRoot`).
- `navigate` returns at line 477 without shaking when the focus has no parent.
- `pushView` reads the current focus at line 814 whenever the stack is
  non-empty, so `Stack.PushView` requires a focus then.
- The completions index the top of the stack without a check: `pop_back` at
  line 717 in popView's hide completion, and `viewStack[size - 1]` at
  line 793 in pushView's hide completion (lines 792-800). Three overlapping
  pops on a two-view stack reach line 717 with the stack empty. A fading push
  onto a one-view stack, followed by two pops whose removals complete before
  the old top's hide does, reaches line 793 with the stack empty.
  `Stack.CanFire` therefore lets a removal or reveal completion fire only on
  a non-empty stack.

## Model

| member | source | states |
|---|---|---|
| Views.Chain | library/lib/application.cpp:541-557 | the upward walk visits the view, then each parent in turn, and stops at a view without a parent |
| AppState.BlockInputs | library/lib/application.cpp:900-903 | blocking raises the token count by exactly one |
| AppState.UnblockInputs | library/lib/application.cpp:905-909 | unblocking never raises the count, and lowers it whenever it is positive |
| AppState.UnblockUndoesBlock | library/lib/application.cpp:900-909 | an unblock undoes exactly one block, and unblocking at zero stays at zero |
| AppState.SettledMeansUnblocked | library/lib/application.cpp:700-825 | when no transition is pending, the counter that matches owed unblocks is zero, so inputs flow |
| Focus.FocusEvents | library/lib/application.cpp:684-697 | the calls giveFocus makes on a change: lost on the old holder, the global change, gained on the new holder; none when the focus stays |
| Focus.GiveFocus | library/lib/application.cpp:679-698 | the focus becomes the target's default focus; when that differs from the old focus, lost, global change and gained fire in that order; otherwise nothing happens |
| Focus.GiveFocusIdempotent | library/lib/application.cpp:679-698 | giving focus to the same view twice equals giving it once |
| Focus.GiveFocusNotifiesIffChanged | library/lib/application.cpp:684-690 | the global focus-change event fires exactly when the focus changes |
| Focus.FindNext | library/lib/application.cpp:480-490 | the candidate navigation settles on: the parent's answer for the focus, or, if empty and the parent is not the root, the answer one level up |
| Focus.FindNextIsFirstAnswer | library/lib/application.cpp:480-490 | the search asks the parent of the focus and then of each ancestor below the root, keyed on the child it comes from (which covers the child's parent user data the source passes); it finds nothing exactly when every answer is empty, and otherwise returns the first non-empty answer |
| Focus.NavigateSearch | library/lib/application.cpp:480-490 | the loop as written returns the first-answer candidate |
| Focus.Navigate | library/lib/application.cpp:471-501 | no focus or a parentless focus: no change; no candidate: a shake in that direction and the focus is kept; otherwise focus goes to the candidate |
| Focus.NavigateOnlyMovesFocus | library/lib/application.cpp:471-501 | navigation changes only the focus and the event log, and a changed focus is the candidate's default focus |
| Focus.NavigateDeadEndShakes | library/lib/application.cpp:483-497 | a focus below the root whose parent offers nothing is shaken and kept |
| Focus.NavigateAppendsEvents | library/lib/application.cpp:471-501 | navigation only appends to the record of calls, the shake or the focus notifications |
| Actions.SystemActionEffects | library/lib/application.cpp:466-469 | the Exit action on PLUS runs `quit`, which changes nothing but consumes the key; the framerate action on MINUS consumes and flips the counter; Exit ignores every other button |
| Actions.Step | library/lib/application.cpp:545-553 | one iteration of the inner loop: skip another key, a consumed key or an unavailable action; otherwise invoke the listener (flipping the counter for the framerate listener) and mark the key consumed if it consumes |
| Actions.FramerateStepIsToggle | library/lib/application.cpp:641-644 | the framerate listener, when reached, flips the counter exactly as toggleFramerateDisplay does (line 776 registers that toggle), and consumes its key |
| Actions.RunClosedForm | library/lib/application.cpp:541-559 | the dispatch runs exactly the available actions for the button up to and including the first consuming one; the button is consumed iff some such action consumes it; the counter flips iff the pass ends in the framerate toggle |
| Actions.ConsumedButtonStopsDispatch | library/lib/application.cpp:545-553 | once an action consumes the button, no action after it is invoked |
| Actions.HandleAction | library/lib/application.cpp:536-560 | handling an action changes nothing but the framerate counter and the event log |
| Actions.HandleActionSpec | library/lib/application.cpp:536-560 | handled iff some available action on the focus or an ancestor consumes the button; the listeners run in order up to the first consumer; the counter changes only through the framerate toggle; with no focus nothing is handled |
| Actions.OfferViewActions | library/lib/application.cpp:543-554 | the inner loop over one view's action list, as written, continues the dispatch pass over that view's actions in list order |
| Actions.HandleActionLoop | library/lib/application.cpp:536-560 | the nested loop as written computes the same result as the dispatch specification |
| Render.DrawStart | library/lib/application.cpp:583-590 | drawing starts at an index above which every view is translucent, and which is opaque unless it is the bottom of the stack; it is inside the stack whenever the stack is non-empty |
| Render.RenderSet | library/lib/application.cpp:579-596 | the drawn views are the top suffix of the stack from that start, so the top view is always drawn |
| Render.RenderSetUnique | library/lib/application.cpp:579-590 | at most one suffix meets those conditions |
| Render.CollectViewsToDraw | library/lib/application.cpp:579-596 | the collect-then-reverse loops as written produce exactly that suffix, bottom first |
| Render.FrameSplit | library/lib/application.cpp:592-603 | a frame draws the render set bottom first, then the overlays |
| Render.Frame | library/lib/application.cpp:592-603 | a frame draws the render set bottom first, then the counter when present, then notifications |
| Render.FrameOrder | library/lib/application.cpp:592-603 | views come before every overlay, notifications come last, the counter appears iff it is enabled, and the top view is always drawn |
| Render.RenderSetExamples | library/lib/application.cpp:583-590 | on [A, B, C] with A opaque and C translucent: B translucent draws A, B, C; B opaque draws B, C |
| Render.RenderSetDependsOnStackOnly | library/lib/application.cpp:583-590 | which views are drawn depends only on the stack and on which views are translucent, never on the counter, focus or pending transitions |
| Render.SetDisplayFramerate | library/lib/application.cpp:625-639 | the counter is present afterwards exactly when requested, and nothing else changes |
| Render.ToggleFramerateDisplay | library/lib/application.cpp:641-644 | a toggle flips the counter's presence and changes nothing else |
| Render.ToggleFramerateTwice | library/lib/application.cpp:625-644 | two toggles restore the state, and each toggle adds or removes the counter from the frame |
| Stack.FadesOut | library/lib/application.cpp:771 | the fade-out decision: there is a previous top, and neither it nor the new view is translucent |
| Stack.PushPendingOwesOne | library/lib/application.cpp:778-807 | every branch of pushView, with or without fade and wait, schedules completions owing exactly one unblock |
| Stack.StartPushAnimations | library/lib/application.cpp:771-809 | with a fade-out the new view is forced translucent and the old top hidden; without one the new view is shown and not hidden; either way the scheduled completions owe exactly one unblock |
| Stack.PushView | library/lib/application.cpp:761-825 | the view goes on top; the counter rises by one; the old focus is pushed iff the stack was non-empty; the focus becomes the default focus of the view's default focus (line 821 resolves it, then giveFocus resolves again); Exit and framerate actions are appended to its actions; when fading, the view is forced translucent and the old top hidden; the button snapshot, timer, repeat focus and framerate counter are unchanged |
| Stack.PushViewEffects | library/lib/application.cpp:771-821 | only the new view is forced translucent, and only when the old top fades out; the hidden flags follow the shows and hides started; no other view's actions change; the calls are will-appear on the view (line 820) and then the focus calls of giveFocus (line 821) |
| Stack.PopView | library/lib/application.cpp:700-759 | one view or fewer: nothing happens; otherwise the counter rises by one, the top alone is newly forced translucent and hidden, and its hide owes the removal; the view below is shown at once unless the animation waits; the calls are will-disappear on the top, will-appear on the view below when shown, then the focus calls; when the focus stack is non-empty the focus becomes the default focus of its last entry (giveFocus at line 756) and that entry is popped, otherwise the focus is kept; the stack, registered actions, button snapshot, timer, repeat focus and framerate counter are unchanged |
| Stack.TeardownEvents | library/lib/application.cpp:845-849 | each view, bottom first, is told it will disappear and is then destroyed |
| Stack.Clear | library/lib/application.cpp:843-852 | clear empties the stack after tearing every view down, and changes nothing else |
| Stack.Fire | library/lib/application.cpp:715-801 | the fired entry alone leaves the pending list; pushView's show completion only unblocks; popView's show completion only runs the caller's callback; a reveal stops forcing the top translucent, and no other view, and when the push waited shows it then; a removal drops the top view, stops forcing it, destroys it and unblocks, and when the pop waited it shows the new top if hidden or else runs the callback; no completion touches the focus, focus stack, registered actions, input snapshot or framerate counter |
| Stack.PushKeepsInv | library/lib/application.cpp:761-825 | pushView keeps the counter equal to the unblocks owed |
| Stack.PopKeepsInv | library/lib/application.cpp:700-759 | popView keeps the counter equal to the unblocks owed |
| Stack.FireKeepsInv | library/lib/application.cpp:715-801 | every completion keeps the counter equal to the unblocks owed, and an unblocking completion finds the counter positive, so it lowers it by exactly one |
| Stack.PushThenPopRestores | library/lib/application.cpp:700-825 | a push then a pop gives back the focus stack at once and sets the focus to the default focus of the previous focus (giveFocus re-resolves it at line 756); the previous view stack comes back when the pop's hide completes |
| Stack.FadingPopDefers | library/lib/application.cpp:702-717 | a fading pop on two or more views leaves the stack as it is and schedules the removal of the top |
| Stack.RemovalDropsTop | library/lib/application.cpp:715-719 | a removal completion drops the top view and keeps the earlier pending entries in place |
| Stack.OverlappingPopsRemoveRoot | library/lib/application.cpp:702-722 | assuming each hide completion runs once and is not cancelled, two fading pops issued on a two-view stack before either completes leave the stack empty |
| Input.Repeating | library/lib/application.cpp:418 | the repeat test: the shared timer is above the delay of 15 and a multiple of the cadence 5 |
| Input.RepeatSchedule | library/lib/application.cpp:418 | a held button repeats at timer values 20, 25, 30, … and at no others |
| Input.DirectionOf | library/lib/application.cpp:520-528 | DDOWN, DUP, DLEFT and DRIGHT map to their direction, checked in that order; every other button has none |
| Input.OnButtonPressed | library/lib/application.cpp:503-529 | blocked inputs, or a repeat with the focus unchanged since the last accepted press, change nothing; an accepted press records the focus and runs action dispatch; if no action consumed it and it is DDOWN, DUP, DLEFT or DRIGHT, the result is navigation in that direction, otherwise the dispatch result; only such a navigation moves the focus; the stacks, counter and pending transitions never change |
| Input.ConsumedPressKeepsFocus | library/lib/application.cpp:513-528 | a press an action consumes never navigates |
| Input.UnconsumedPressMovesFocus | library/lib/application.cpp:511-528 | an accepted directional press that no action consumes, whose navigation candidate resolves to another view, moves the focus to that view |
| Input.AcceptedPressRunsListeners | library/lib/application.cpp:511-515 | an accepted press first runs exactly the listeners that dispatch selects (the available actions for the button on the focus chain, up to the first consumer), and navigation only appends after them |
| Input.ScanPressesBelow | library/lib/application.cpp:410-421 | the scan of buttons below n only presses buttons below n |
| Input.ScanPressesExact | library/lib/application.cpp:410-428 | the reference press list is strictly ordered by button and holds exactly the firing buttons, each flagged as a repeat iff the timer it sees is on the repeat schedule |
| Input.ScanButtons | library/lib/application.cpp:410-434 | the loop as written produces the reference press list; the snapshot becomes the sampled state; presses come in button order and are exactly the buttons down now and either newly down or due to repeat at the timer as reset by earlier changed buttons; the timer is reset iff any button changed, and advances iff a button is down and the clock ticked |
| Input.ApplyPresses | library/lib/application.cpp:410-422 | dispatching a tick's presses never changes the stacks, the counter or pending transitions, and does nothing while inputs are blocked |
| Input.ApplyPressesSnoc | library/lib/application.cpp:410-422 | one more press after a batch is pressed in the state the batch left, so a tick's presses pass through the gate one after another in scan order |
| Input.FreshPressReportedAsRepeat | library/lib/application.cpp:415-425 | a newly pressed button behind a held one on a repeat tick is flagged as a repeat, and the gate drops it when the focus has not moved |
| Input.Tick | library/lib/application.cpp:386-448 | applet gone: clear and stop; otherwise the state is the reference presses of the scan dispatched in button order, with the snapshot set to the sampled state and the timer reset and advanced as the scan does; PLUS held: that state cleared and stop; otherwise the stack is kept and the frame drawn; the token invariant is kept |

## Left out

- Rendering: the GPU renderer, nanovg calls, frame pacing, the FPS cap and
  the framerate counter's own drawing. A frame is modelled as the ordered
  list of what it draws.
- Initialisation, window resizing, themes, fonts, the style and `crash`.
  They concern the platform and layout, not navigation.
- The bodies of View methods: layout, animation, `getDefaultFocus`,
  `getNextFocus` and the action lists. They are oracle fields of
  `Views.World`. `show`/`hide` are assumed to clear or set the hidden flag
  at call time.
- Memory management: `delete` is recorded as a `Destroyed` event.
  Use-after-delete of focus-stack entries is not modelled.
- Application listeners' side effects other than their "consumed" answer.
  A listener that pushes or pops views from inside a dispatch is not modelled.
- The notification and task managers, `menu_animation_update`, and the
  deletions `exit` makes after `clear`. `menu_animation_free` is left out too.
- Input.ScanButtons: the `int` timer's overflow and the `1 << i` shift
  overflow for `i >= 31` are not modelled. The timer is unbounded, and the
  button count is the length of the sampled array, because `MaxButtons` is
  not part of this model.
- Input.ApplyPresses: its own contract states only what a tick's presses
  leave unchanged. The per-press effect is in `Input.OnButtonPressed`, and the
  sequencing is in `Input.ApplyPressesSnoc`.
- `registerAction` is assumed to append to the view's action list and never
  to replace an action with the same key. Its body is not part of this
  model. `AppState.ActionsOf` and `Stack.PushView` rest on this assumption.
- `isTranslucent()` is assumed to be the view's own flag or its
  `setForceTranslucent` setting. The View class is not part of this model.
  `AppState.Translucent`, the render set and `Stack.FadesOut` rest on this
  assumption.
- Every `show`/`hide` completion is assumed to run exactly once. A later
  `show`/`hide` on the same view is assumed not to cancel one still pending.
  The animation code is not part of this model. `AppState.Inv`,
  `Stack.FireKeepsInv` and `Stack.OverlappingPopsRemoveRoot` rest on this
  assumption.
- Stack.Fire: completions fire in any order the caller chooses. Animation
  durations, which fix the real order, are not modelled.

=== FILE: actions.dfy ===
/**
 Action dispatch (`handleAction`): the actions of the focused view and then of
 each ancestor, each view's list in order, are offered the pressed button;
 once a listener reports the key consumed, no later action for that key runs.
 */
module Actions {
  import opened Views
  import opened AppState
  import Render

  /** An action together with the view it belongs to and its position in that view's list. */
  datatype Entry = Entry(view: ViewId, index: nat, action: Action)

  function ViewEntries(w: World, s: App, v: ViewId): (es: seq<Entry>)
    ensures |es| == |ActionsOf(w, s, v)|
    ensures forall i :: 0 <= i < |es| ==> es[i] == Entry(v, i, ActionsOf(w, s, v)[i])
  {
    var acts := ActionsOf(w, s, v);
    seq(|acts|, i requires 0 <= i < |acts| => Entry(v, i, acts[i]))
  }

  /** Every action along a chain of views, nearest view first. */
  function Entries(w: World, s: App, chain: seq<ViewId>): seq<Entry>
  {
    if |chain| == 0 then [] else Entries(w, s, chain[..|chain| - 1]) + ViewEntries(w, s, Last(chain))
  }

  /** The action answers to the button and may be invoked. */
  predicate Eligible(e: Entry, b: Button)
  {
    e.action.key == b && e.action.available
  }

  /** Invoking the action consumes the button. */
  predicate Consumer(e: Entry, b: Button)
  {
    Eligible(e, b) && Consumes(e.action.listener)
  }

  /** The dispatch pass so far: listeners invoked, consumed keys, framerate counter present. */
  datatype Dispatch = Dispatch(invoked: seq<Entry>, consumed: set<Button>, framerate: bool)

  /** One iteration of the inner loop of handleAction. */
  function Step(d: Dispatch, e: Entry, b: Button): Dispatch
  {
    if e.action.key != b then d
    else if e.action.key in d.consumed then d
    else if !e.action.available then d
    else
      var fps := if e.action.listener == ToggleFramerate then !d.framerate else d.framerate;
      var d' := d.(invoked := d.invoked + [e], framerate := fps);
      if Consumes(e.action.listener) then d'.(consumed := d'.consumed + {e.action.key}) else d'
  }

  /** The framerate listener, when the dispatch reaches it, flips the counter
      exactly as toggleFramerateDisplay does, and consumes its key. */
  lemma FramerateStepIsToggle(s: App, d: Dispatch, e: Entry, b: Button)
    requires Eligible(e, b) && e.action.key !in d.consumed && e.action.listener == ToggleFramerate
    requires d.framerate == s.framerate
    ensures Step(d, e, b).framerate == Render.ToggleFramerateDisplay(s).framerate
    ensures Step(d, e, b).invoked == d.invoked + [e] && b in Step(d, e, b).consumed
  {
  }

  /** The dispatch pass over a list of entries, starting with no key consumed. */
  function Run(es: seq<Entry>, b: Button, fps: bool): Dispatch
  {
    if |es| == 0 then Dispatch([], {}, fps) else Step(Run(es[..|es| - 1], b, fps), Last(es), b)
  }

  /** The eligible entries of `es`, in order. */
  function Eligibles(es: seq<Entry>, b: Button): seq<Entry>
  {
    if |es| == 0 then []
    else
      var rest := Eligibles(es[..|es| - 1], b);
      if Eligible(Last(es), b) then rest + [Last(es)] else rest
  }

  /** `Eligibles` keeps every eligible entry and nothing else. */
  lemma {:induction false} EligiblesExact(es: seq<Entry>, b: Button)
    ensures forall i :: 0 <= i < |Eligibles(es, b)| ==> Eligible(Eligibles(es, b)[i], b) && Eligibles(es, b)[i] in es
    ensures forall e :: e in es && Eligible(e, b) ==> e in Eligibles(es, b)
  {
    if |es| > 0 {
      var es' := es[..|es| - 1];
      EligiblesExact(es', b);
      assert forall e :: e in es ==> e in es' || e == Last(es);
      assert forall e :: e in es' ==> e in es;
    }
  }

  ghost predicate HasConsumer(es: seq<Entry>, b: Button)
  {
    exists k :: 0 <= k < |es| && Consumer(es[k], b)
  }

  /** The length of the shortest prefix of `es` holding a consumer, or `|es|` when there is none. */
  ghost function Cut(es: seq<Entry>, b: Button): (c: nat)
    ensures c <= |es|
  {
    if |es| == 0 then 0
    else if HasConsumer(es[..|es| - 1], b) then Cut(es[..|es| - 1], b)
    else |es|
  }

  lemma {:induction false} CutBounds(es: seq<Entry>, b: Button)
    ensures forall k :: 0 <= k < |es| && Consumer(es[k], b) ==> Cut(es, b) <= k + 1
    ensures HasConsumer(es, b) ==> 0 < Cut(es, b) && Consumer(es[Cut(es, b) - 1], b)
    ensures !HasConsumer(es, b) ==> Cut(es, b) == |es|
  {
    if |es| > 0 {
      var es' := es[..|es| - 1];
      CutBounds(es', b);
      PrefixConsumer(es, b);
      assert forall k :: 0 <= k < |es'| ==> es'[k] == es[k];
    }
  }

  lemma PrefixConsumer(es: seq<Entry>, b: Button)
    requires |es| > 0
    ensures HasConsumer(es, b) <==> HasConsumer(es[..|es| - 1], b) || Consumer(Last(es), b)
  {
    var es' := es[..|es| - 1];
    if HasConsumer(es, b) && !Consumer(Last(es), b) {
      var k :| 0 <= k < |es| && Consumer(es[k], b);
      assert Consumer(es'[k], b);
    }
    if HasConsumer(es', b) {
      var k :| 0 <= k < |es'| && Consumer(es'[k], b);
      assert Consumer(es[k], b);
    }
    if Consumer(Last(es), b) {
      assert Consumer(es[|es| - 1], b);
    }
  }

  /** The Exit action's listener calls `quit`, which does nothing: offered PLUS,
      it is recorded as run and consumes the key, and the counter is untouched.
      The framerate action consumes MINUS and flips the counter. */
  lemma SystemActionEffects(d: Dispatch, v: ViewId, i: nat)
    requires KeyPlus !in d.consumed && KeyMinus !in d.consumed
    ensures Step(d, Entry(v, i, ExitAction), KeyPlus)
      == Dispatch(d.invoked + [Entry(v, i, ExitAction)], d.consumed + {KeyPlus}, d.framerate)
    ensures Step(d, Entry(v, i, FramerateAction), KeyMinus)
      == Dispatch(d.invoked + [Entry(v, i, FramerateAction)], d.consumed + {KeyMinus}, !d.framerate)
    ensures forall b :: b != KeyPlus ==> Step(d, Entry(v, i, ExitAction), b) == d
  {
  }

  /** The closed form of `RunClosedForm`, as one predicate. */
  ghost predicate RunIsClosedForm(es: seq<Entry>, b: Button, fps: bool, d: Dispatch)
  {
    && d.invoked == Eligibles(es[..Cut(es, b)], b)
    && d.consumed == (if HasConsumer(es, b) then {b} else {})
    && (HasConsumer(es, b) ==> |d.invoked| > 0)
    && d.framerate == (fps != (HasConsumer(es, b) && |d.invoked| > 0 && Last(d.invoked).action.listener == ToggleFramerate))
  }

  lemma RunStepAfterConsumer(es: seq<Entry>, b: Button, fps: bool)
    requires |es| > 0 && HasConsumer(es[..|es| - 1], b)
    requires RunIsClosedForm(es[..|es| - 1], b, fps, Run(es[..|es| - 1], b, fps))
    ensures RunIsClosedForm(es, b, fps, Run(es, b, fps))
  {
    var es' := es[..|es| - 1];
    PrefixConsumer(es, b);
    assert Run(es, b, fps) == Run(es', b, fps);
    assert Cut(es, b) == Cut(es', b);
    assert es[..Cut(es, b)] == es'[..Cut(es', b)];
  }

  lemma RunStepBeforeConsumer(es: seq<Entry>, b: Button, fps: bool)
    requires |es| > 0 && !HasConsumer(es[..|es| - 1], b)
    requires RunIsClosedForm(es[..|es| - 1], b, fps, Run(es[..|es| - 1], b, fps))
    ensures RunIsClosedForm(es, b, fps, Run(es, b, fps))
  {
    var es' := es[..|es| - 1];
    var e := Last(es);
    var d' := Run(es', b, fps);
    PrefixConsumer(es, b);
    CutBounds(es', b);
    CutBounds(es, b);
    assert es'[..Cut(es', b)] == es';
    assert d'.invoked == Eligibles(es', b);
    assert d'.consumed == {};
    assert d'.framerate == fps;
    assert Cut(es, b) == |es|;
    assert es[..|es|] == es;
    assert Eligibles(es, b) == Eligibles(es', b) + (if Eligible(e, b) then [e] else []);
    assert Run(es, b, fps) == Step(d', e, b);
  }

  /** The pass invokes exactly the eligible listeners up to and including the
      first consuming one, the button is consumed exactly when some eligible
      listener consumes it, and the framerate counter flips exactly when the
      pass ends in the framerate toggle. */
  lemma {:induction false} RunClosedForm(es: seq<Entry>, b: Button, fps: bool)
    ensures Run(es, b, fps).invoked == Eligibles(es[..Cut(es, b)], b)
    ensures Run(es, b, fps).consumed == if HasConsumer(es, b) then {b} else {}
    ensures HasConsumer(es, b) ==> |Run(es, b, fps).invoked| > 0
    ensures Run(es, b, fps).framerate
      == (fps != (HasConsumer(es, b) && Last(Run(es, b, fps).invoked).action.listener == ToggleFramerate))
  {
    if |es| == 0 {
      assert es[..0] == [];
    } else {
      RunClosedForm(es[..|es| - 1], b, fps);
      if HasConsumer(es[..|es| - 1], b) {
        RunStepAfterConsumer(es, b, fps);
      } else {
        RunStepBeforeConsumer(es, b, fps);
      }
    }
  }

  /** Once an eligible listener consumes the button, no entry after it is invoked. */
  lemma ConsumedButtonStopsDispatch(es: seq<Entry>, b: Button, fps: bool, k: nat)
    requires k < |es| && Consumer(es[k], b)
    ensures forall i :: 0 <= i < |Run(es, b, fps).invoked| ==> Run(es, b, fps).invoked[i] in es[..k + 1]
    ensures Run(es, b, fps).consumed == {b}
  {
    RunClosedForm(es, b, fps);
    CutBounds(es, b);
    var c := Cut(es, b);
    EligiblesExact(es[..c], b);
    forall i | 0 <= i < |Run(es, b, fps).invoked|
      ensures Run(es, b, fps).invoked[i] in es[..k + 1]
    {
      var e := Run(es, b, fps).invoked[i];
      assert e in es[..c];
      var j :| 0 <= j < c && es[..c][j] == e;
      assert es[..k + 1][j] == e;
    }
  }

  /** The actions offered the button: those of the focused view and of each ancestor. */
  function FocusEntries(w: World, s: App): seq<Entry>
    requires w.Valid()
  {
    if s.focus.Some? then Entries(w, s, Chain(w, s.focus.value)) else []
  }

  function RunEvents(es: seq<Entry>): (r: seq<Event>)
    ensures |r| == |es|
    ensures forall i :: 0 <= i < |es| ==> r[i] == ListenerRun(es[i].view, es[i].index)
  {
    seq(|es|, i requires 0 <= i < |es| => ListenerRun(es[i].view, es[i].index))
  }

  datatype Handled = Handled(consumed: bool, app: App)

  /** handleAction, as a function of the state. */
  function HandleAction(w: World, s: App, b: Button): (h: Handled)
    requires w.Valid()
    ensures h.app == s.(framerate := h.app.framerate, events := h.app.events)
  {
    var d := Run(FocusEntries(w, s), b, s.framerate);
    Handled(d.consumed != {}, s.(framerate := d.framerate, events := s.events + RunEvents(d.invoked)))
  }

  /** handleAction reports the button handled exactly when some available action
      for it, on the focus or an ancestor, consumes it; it runs exactly the
      eligible listeners up to the first consuming one, in order; only the
      framerate toggle changes the state. */
  lemma HandleActionSpec(w: World, s: App, b: Button)
    requires w.Valid()
    ensures var es := FocusEntries(w, s);
      HandleAction(w, s, b).consumed <==> exists k :: 0 <= k < |es| && Consumer(es[k], b)
    ensures var es := FocusEntries(w, s);
      HandleAction(w, s, b).app.events == s.events + RunEvents(Eligibles(es[..Cut(es, b)], b))
    ensures var es := FocusEntries(w, s); var h := HandleAction(w, s, b);
      h.app.framerate != s.framerate ==> h.consumed && |Run(es, b, s.framerate).invoked| > 0 && Last(Run(es, b, s.framerate).invoked).action.listener == ToggleFramerate
    ensures s.focus.None? ==> HandleAction(w, s, b) == Handled(false, s)
  {
    var es := FocusEntries(w, s);
    RunClosedForm(es, b, s.framerate);
    if s.focus.None? {
      assert s.(framerate := s.framerate, events := s.events + []) == s;
    }
  }

  lemma RunSnoc(es: seq<Entry>, e: Entry, b: Button, fps: bool)
    ensures Run(es + [e], b, fps) == Step(Run(es, b, fps), e, b)
  {
    assert (es + [e])[..|es|] == es;
  }

  lemma EntriesSnoc(w: World, s: App, chain: seq<ViewId>, k: nat)
    requires k < |chain|
    ensures Entries(w, s, chain[..k + 1]) == Entries(w, s, chain[..k]) + ViewEntries(w, s, chain[k])
  {
    assert chain[..k + 1][..k] == chain[..k];
  }

  /** The inner loop of handleAction as written: offer the button to each
      action of view `v` in list order, continuing the pass `done` has reached. */
  method OfferViewActions(w: World, s: App, v: ViewId, b: Button, fps0: bool, ghost done: seq<Entry>,
                          invoked: seq<Entry>, consumedKeys: set<Button>, fps: bool)
    returns (invoked': seq<Entry>, consumedKeys': set<Button>, fps': bool)
    requires Dispatch(invoked, consumedKeys, fps) == Run(done, b, fps0)
    ensures Dispatch(invoked', consumedKeys', fps') == Run(done + ViewEntries(w, s, v), b, fps0)
  {
    invoked', consumedKeys', fps' := invoked, consumedKeys, fps;
    var acts := ActionsOf(w, s, v);
    var i := 0;
    assert done + ViewEntries(w, s, v)[..0] == done;
    while i < |acts|
      invariant 0 <= i <= |acts|
      invariant Dispatch(invoked', consumedKeys', fps') == Run(done + ViewEntries(w, s, v)[..i], b, fps0)
    {
      var action := acts[i];
      ghost var before := done + ViewEntries(w, s, v)[..i];
      assert done + ViewEntries(w, s, v)[..i + 1] == before + [Entry(v, i, action)];
      RunSnoc(before, Entry(v, i, action), b, fps0);
      if action.key != b {
      } else if action.key in consumedKeys' {
      } else if action.available {
        if action.listener == ToggleFramerate {
          fps' := !fps';
        }
        invoked' := invoked' + [Entry(v, i, action)];
        if Consumes(action.listener) {
          consumedKeys' := consumedKeys' + {action.key};
        }
      }
      i := i + 1;
    }
    assert ViewEntries(w, s, v)[..|acts|] == ViewEntries(w, s, v);
  }

  /** handleAction as written: a walk up the parent links with a nested scan of
      each view's action list and a set of consumed keys. */
  method HandleActionLoop(w: World, s: App, b: Button) returns (consumed: bool, r: App)
    requires w.Valid()
    ensures Handled(consumed, r) == HandleAction(w, s, b)
  {
    var hintParent := s.focus;
    var consumedKeys: set<Button> := {};
    var invoked: seq<Entry> := [];
    var fps := s.framerate;
    ghost var chain := if s.focus.Some? then Chain(w, s.focus.value) else [];
    ghost var k := 0;
    while hintParent.Some?
      invariant 0 <= k <= |chain|
      invariant hintParent.Some? <==> k < |chain|
      invariant hintParent.Some? ==> hintParent.value == chain[k]
      invariant forall j :: 0 <= j < |chain| - 1 ==> w.parent(chain[j]) == Some(chain[j + 1])
      invariant |chain| > 0 ==> w.parent(Last(chain)).None?
      invariant Dispatch(invoked, consumedKeys, fps) == Run(Entries(w, s, chain[..k]), b, s.framerate)
      decreases |chain| - k
    {
      var v := hintParent.value;
      invoked, consumedKeys, fps :=
        OfferViewActions(w, s, v, b, s.framerate, Entries(w, s, chain[..k]), invoked, consumedKeys, fps);
      EntriesSnoc(w, s, chain, k);
      assert k + 1 < |chain| ==> w.parent(chain[k]) == Some(chain[k + 1]);
      hintParent := w.parent(v);
      k := k + 1;
    }
    assert chain[..k] == chain;
    consumed := consumedKeys != {};
    r := s.(framerate := fps, events := s.events + RunEvents(invoked));
  }
}

=== FILE: focus.dfy ===
/**
 Focus controller: `giveFocus` and the upward traversal of `navigate`.
 */
module Focus {
  import opened Views
  import opened AppState

  /** The view `giveFocus(view)` actually focuses: the view's default focus, or null. */
  function Resolve(w: World, view: Option<ViewId>): Option<ViewId>
  {
    if view.Some? then w.defaultFocus(view.value) else None
  }

  /** The calls giveFocus makes when the focus moves from `before` to `after`:
      none when they are equal; otherwise "lost" on the old holder, the global
      change, then "gained" on the new holder. */
  function FocusEvents(before: Option<ViewId>, after: Option<ViewId>): seq<Event>
  {
    if before == after then []
    else
      (if before.Some? then [FocusLost(before.value)] else [])
      + [FocusChanged(after)]
      + (if after.Some? then [FocusGained(after.value)] else [])
  }

  /** giveFocus: when the resolved target differs from the current focus, fire
      "lost" on the old holder, move the focus, publish the global change, fire
      "gained" on the new holder; otherwise nothing at all happens. */
  function GiveFocus(w: World, s: App, view: Option<ViewId>): (r: App)
    ensures r.focus == Resolve(w, view)
    ensures s.focus == r.focus ==> r == s
    ensures s.focus != r.focus ==>
      r.events == s.events
        + (if s.focus.Some? then [FocusLost(s.focus.value)] else [])
        + [FocusChanged(r.focus)]
        + (if r.focus.Some? then [FocusGained(r.focus.value)] else [])
    ensures r.events == s.events + FocusEvents(s.focus, r.focus)
    ensures r == s.(focus := r.focus, events := r.events)
  {
    var target := Resolve(w, view);
    if s.focus == target then s
    else s.(focus := target, events := s.events + FocusEvents(s.focus, target))
  }

  /** Giving focus to the same view twice is the same as giving it once. */
  lemma GiveFocusIdempotent(w: World, s: App, view: Option<ViewId>)
    ensures GiveFocus(w, GiveFocus(w, s, view), view) == GiveFocus(w, s, view)
  {
  }

  /** The global focus-change event fires exactly when the focus changes. */
  lemma GiveFocusNotifiesIffChanged(w: World, s: App, view: Option<ViewId>)
    ensures var r := GiveFocus(w, s, view);
      (exists i :: |s.events| <= i < |r.events| && r.events[i] == FocusChanged(r.focus))
      <==> s.focus != Resolve(w, view)
  {
    var r := GiveFocus(w, s, view);
    if s.focus != Resolve(w, view) {
      var i := if s.focus.Some? then |s.events| + 1 else |s.events|;
      assert r.events[i] == FocusChanged(r.focus);
    }
  }

  /** The candidate `navigate` settles on, starting from a view that has a
      parent: ask the parent for the next focus in `dir` with `c` as hint, and
      on no answer move up one level, stopping below the root. */
  function FindNext(w: World, c: ViewId, dir: Direction): Option<ViewId>
    requires w.Valid()
    requires w.parent(c).Some?
    decreases w.depth(c)
  {
    var p := w.parent(c).value;
    var q := w.nextFocus(p, dir, c);
    if q.Some? then q
    else if w.parent(p).None? then None
    else FindNext(w, p, dir)
  }

  /** The answer the parent of chain element `i` gives when asked with that element as hint. */
  function Query(w: World, c: seq<ViewId>, i: nat, dir: Direction): Option<ViewId>
    requires i + 1 < |c|
  {
    w.nextFocus(c[i + 1], dir, c[i])
  }

  /** `r` is the first answer along chain `c`: none exactly when every query
      answers none, and otherwise an answer preceded only by empty ones. */
  ghost predicate FirstAnswer(w: World, c: seq<ViewId>, dir: Direction, r: Option<ViewId>)
  {
    && (r.None? <==> forall i :: 0 <= i < |c| - 1 ==> Query(w, c, i, dir).None?)
    && (r.Some? ==>
          exists i :: 0 <= i < |c| - 1 && Query(w, c, i, dir) == r
            && forall j :: 0 <= j < i ==> Query(w, c, j, dir).None?)
  }

  lemma FirstAnswerHead(w: World, c: seq<ViewId>, dir: Direction)
    requires |c| > 1 && Query(w, c, 0, dir).Some?
    ensures FirstAnswer(w, c, dir, Query(w, c, 0, dir))
  {
  }

  lemma FirstAnswerRoot(w: World, c: seq<ViewId>, dir: Direction)
    requires |c| == 2 && Query(w, c, 0, dir).None?
    ensures FirstAnswer(w, c, dir, None)
  {
  }

  /** An empty first answer passes the question on to the rest of the chain. */
  lemma FirstAnswerTail(w: World, c: seq<ViewId>, dir: Direction, r: Option<ViewId>)
    requires |c| > 2 && Query(w, c, 0, dir).None?
    requires FirstAnswer(w, c[1..], dir, r)
    ensures FirstAnswer(w, c, dir, r)
  {
    var c' := c[1..];
    assert forall i :: 0 <= i < |c'| - 1 ==> Query(w, c', i, dir) == Query(w, c, i + 1, dir);
    if r.None? {
      forall i | 0 <= i < |c| - 1
        ensures Query(w, c, i, dir).None?
      {
        if i > 0 {
          assert Query(w, c', i - 1, dir) == Query(w, c, i, dir);
        }
      }
    } else {
      var i :| 0 <= i < |c'| - 1 && Query(w, c', i, dir) == r
        && forall j :: 0 <= j < i ==> Query(w, c', j, dir).None?;
      assert Query(w, c, i + 1, dir) == r;
      forall j | 0 <= j < i + 1
        ensures Query(w, c, j, dir).None?
      {
        if j > 0 {
          assert Query(w, c', j - 1, dir) == Query(w, c, j, dir);
        }
      }
    }
  }

  /** The traversal asks every non-root view of the focus's ancestor chain, in
      order, and returns the first answer. */
  lemma {:induction false} FindNextIsFirstAnswer(w: World, f: ViewId, dir: Direction)
    requires w.Valid()
    requires w.parent(f).Some?
    ensures FirstAnswer(w, Chain(w, f), dir, FindNext(w, f, dir))
    decreases w.depth(f)
  {
    var c := Chain(w, f);
    var p := w.parent(f).value;
    assert c[1..] == Chain(w, p);
    assert Query(w, c, 0, dir) == w.nextFocus(p, dir, f);
    if w.nextFocus(p, dir, f).Some? {
      FirstAnswerHead(w, c, dir);
    } else if w.parent(p).None? {
      FirstAnswerRoot(w, c, dir);
    } else {
      FindNextIsFirstAnswer(w, p, dir);
      FirstAnswerTail(w, c, dir, FindNext(w, p, dir));
    }
  }

  /** The upward search loop of `navigate`, step for step. */
  method NavigateSearch(w: World, focus: ViewId, dir: Direction) returns (next: Option<ViewId>)
    requires w.Valid()
    requires w.parent(focus).Some?
    ensures next == FindNext(w, focus, dir)
  {
    var cur := focus;
    next := w.nextFocus(w.parent(cur).value, dir, cur);
    while next.None?
      invariant w.parent(cur).Some?
      invariant next == w.nextFocus(w.parent(cur).value, dir, cur)
      invariant FindNext(w, focus, dir) == FindNext(w, cur, dir)
      decreases w.depth(cur)
    {
      if w.parent(cur).None? || w.parent(w.parent(cur).value).None? {
        break;
      }
      cur := w.parent(cur).value;
      next := w.nextFocus(w.parent(cur).value, dir, cur);
    }
  }

  /** navigate: without a focus, or with a parentless focus, nothing happens;
      otherwise the found candidate is given focus, or the focus is shaken and kept. */
  function Navigate(w: World, s: App, dir: Direction): (r: App)
    requires w.Valid()
    ensures s.focus.None? || w.parent(s.focus.value).None? ==> r == s
    ensures s.focus.Some? && w.parent(s.focus.value).Some? && FindNext(w, s.focus.value, dir).None? ==>
      r == s.(events := s.events + [Shake(s.focus.value, dir)])
    ensures s.focus.Some? && w.parent(s.focus.value).Some? && FindNext(w, s.focus.value, dir).Some? ==>
      r == GiveFocus(w, s, FindNext(w, s.focus.value, dir))
  {
    match s.focus
    case None => s
    case Some(f) =>
      if w.parent(f).None? then s
      else
        match FindNext(w, f, dir)
        case None => s.(events := s.events + [Shake(f, dir)])
        case Some(n) => GiveFocus(w, s, Some(n))
  }

  /** Navigation moves the focus only, never the stacks, the counter or pending animations. */
  lemma NavigateOnlyMovesFocus(w: World, s: App, dir: Direction)
    requires w.Valid()
    ensures var r := Navigate(w, s, dir);
      r == s.(focus := r.focus, events := r.events)
    ensures var r := Navigate(w, s, dir);
      r.focus != s.focus ==>
        (s.focus.Some? && w.parent(s.focus.value).Some?
         && r.focus == Resolve(w, FindNext(w, s.focus.value, dir)))
  {
  }

  /** Navigation only appends to the event log. */
  lemma NavigateAppendsEvents(w: World, s: App, dir: Direction)
    requires w.Valid()
    ensures var r := Navigate(w, s, dir);
      |s.events| <= |r.events| && r.events[..|s.events|] == s.events
  {
    var r := Navigate(w, s, dir);
    if s.focus.Some? && w.parent(s.focus.value).Some? {
      var n := FindNext(w, s.focus.value, dir);
      if n.Some? && Resolve(w, n) != s.focus {
        var lost := if s.focus.Some? then [FocusLost(s.focus.value)] else [];
        var gained := if r.focus.Some? then [FocusGained(r.focus.value)] else [];
        assert r.events == s.events + (lost + [FocusChanged(r.focus)] + gained);
      }
    }
  }

  /** A focus whose parent has no candidate in any direction is shaken and kept. */
  lemma NavigateDeadEndShakes(w: World, s: App, dir: Direction)
    requires w.Valid()
    requires s.focus.Some? && w.parent(s.focus.value).Some?
    requires w.parent(w.parent(s.focus.value).value).None?
    requires w.nextFocus(w.parent(s.focus.value).value, dir, s.focus.value).None?
    ensures Navigate(w, s, dir).focus == s.focus
    ensures Navigate(w, s, dir).events == s.events + [Shake(s.focus.value, dir)]
  {
  }
}

=== FILE: input.dfy ===
/**
 Input: the per-tick button scan of `mainLoop` (edge and repeat detection),
 the press gate `onGamepadButtonPressed`, and one whole tick of the loop.
 */
module Input {
  import opened Views
  import opened AppState
  import opened Focus
  import opened Actions
  import opened Stack
  import opened Render

  const RepeatDelay: nat := 15
  const RepeatCadence: nat := 5

  /** The shared timer value at which a held button repeats. */
  predicate Repeating(timer: nat)
  {
    timer > RepeatDelay && timer % RepeatCadence == 0
  }

  /** Repeats happen at timer values 20, 25, 30, ...: the first multiple of
      the cadence past the delay, then every cadence. */
  lemma RepeatSchedule(t: nat)
    ensures Repeating(t) <==> exists k: nat :: t == 20 + 5 * k
  {
    if Repeating(t) {
      var k: nat := (t - 20) / 5;
      assert t == 20 + 5 * k;
    }
  }

  /** The navigation direction of a directional button, checked DOWN, UP, LEFT, RIGHT. */
  function DirectionOf(b: Button): Option<Direction>
  {
    if b == KeyDDown then Some(Down)
    else if b == KeyDUp then Some(Up)
    else if b == KeyDLeft then Some(Left)
    else if b == KeyDRight then Some(Right)
    else None
  }

  /** The press gate lets a press through: inputs are not blocked, and it is
      not a repeat while the focus is where the previous accepted press left it. */
  predicate Accepted(s: App, repeating: bool)
  {
    s.tokens == 0 && !(repeating && s.repeatFocus == s.focus)
  }

  /** onGamepadButtonPressed: a press the gate lets through records the focus
      and is offered to the actions; if none consumes it and it is a
      directional button, the focus navigates in that direction. */
  function OnButtonPressed(w: World, s: App, b: Button, repeating: bool): (r: App)
    requires w.Valid()
    ensures !Accepted(s, repeating) ==> r == s
    ensures Accepted(s, repeating) ==> r.repeatFocus == s.focus
    ensures var h := HandleAction(w, s.(repeatFocus := s.focus), b);
      Accepted(s, repeating) && (h.consumed || DirectionOf(b).None?) ==> r == h.app
    ensures var h := HandleAction(w, s.(repeatFocus := s.focus), b);
      Accepted(s, repeating) && !h.consumed && DirectionOf(b).Some? ==> r == Navigate(w, h.app, DirectionOf(b).value)
    ensures r.stack == s.stack && r.tokens == s.tokens && r.pending == s.pending
    ensures r.focusStack == s.focusStack && r.buttons == s.buttons && r.timer == s.timer
    ensures r.focus != s.focus ==>
      && Accepted(s, repeating)
      && !HandleAction(w, s.(repeatFocus := s.focus), b).consumed
      && DirectionOf(b).Some? && s.focus.Some? && w.parent(s.focus.value).Some?
      && r.focus == Resolve(w, FindNext(w, s.focus.value, DirectionOf(b).value))
  {
    if s.tokens != 0 then s
    else if repeating && s.repeatFocus == s.focus then s
    else
      var s1 := s.(repeatFocus := s.focus);
      var h := HandleAction(w, s1, b);
      if h.consumed then h.app
      else
        match DirectionOf(b)
        case None => h.app
        case Some(d) =>
          NavigateOnlyMovesFocus(w, h.app, d);
          Navigate(w, h.app, d)
  }

  /** A press a listener consumes never navigates: the focus stays put. */
  lemma ConsumedPressKeepsFocus(w: World, s: App, b: Button, repeating: bool)
    requires w.Valid()
    requires HandleAction(w, s.(repeatFocus := s.focus), b).consumed
    ensures OnButtonPressed(w, s, b, repeating).focus == s.focus
  {
  }

  /** An accepted directional press that no action consumes, whose navigation
      candidate resolves to another view, moves the focus there. */
  lemma UnconsumedPressMovesFocus(w: World, s: App, b: Button, repeating: bool)
    requires w.Valid()
    requires Accepted(s, repeating)
    requires !HandleAction(w, s.(repeatFocus := s.focus), b).consumed
    requires DirectionOf(b).Some? && s.focus.Some? && w.parent(s.focus.value).Some?
    requires FindNext(w, s.focus.value, DirectionOf(b).value).Some?
    requires Resolve(w, FindNext(w, s.focus.value, DirectionOf(b).value)) != s.focus
    ensures OnButtonPressed(w, s, b, repeating).focus == Resolve(w, FindNext(w, s.focus.value, DirectionOf(b).value))
    ensures OnButtonPressed(w, s, b, repeating).focus != s.focus
  {
  }

  /** An accepted press first runs exactly the listeners action dispatch
      selects: the available actions for the button on the focus and its
      ancestors, up to the first consuming one; navigation only adds after them. */
  lemma AcceptedPressRunsListeners(w: World, s: App, b: Button, repeating: bool)
    requires w.Valid()
    requires Accepted(s, repeating)
    ensures var es := FocusEntries(w, s.(repeatFocus := s.focus));
      var runs := s.events + RunEvents(Eligibles(es[..Cut(es, b)], b));
      var r := OnButtonPressed(w, s, b, repeating);
      |runs| <= |r.events| && r.events[..|runs|] == runs
  {
    var s1 := s.(repeatFocus := s.focus);
    var h := HandleAction(w, s1, b);
    HandleActionSpec(w, s1, b);
    if !h.consumed && DirectionOf(b).Some? {
      NavigateAppendsEvents(w, h.app, DirectionOf(b).value);
    }
  }

  datatype Press = Press(button: Button, repeating: bool)

  /** The shared timer as the scan reaches button `i`: reset to 0 once any
      earlier button changed state in this tick. */
  function TimerAt(prev: seq<bool>, sampled: seq<bool>, timer: nat, i: nat): nat
    requires i <= |prev| == |sampled|
  {
    if forall j :: 0 <= j < i ==> prev[j] == sampled[j] then timer else 0
  }

  /** Button `i` produces a press: down now, and either newly down or due to repeat. */
  predicate Fires(prev: seq<bool>, sampled: seq<bool>, timer: nat, i: nat)
    requires i < |prev| == |sampled|
  {
    sampled[i] && (!prev[i] || Repeating(TimerAt(prev, sampled, timer, i)))
  }

  /** The presses of buttons `0 .. n-1`, in button order: one per firing
      button, flagged as a repeat when the timer it sees is on the schedule. */
  function ScanPresses(prev: seq<bool>, sampled: seq<bool>, timer: nat, n: nat): seq<Press>
    requires n <= |prev| == |sampled|
  {
    if n == 0 then []
    else
      ScanPresses(prev, sampled, timer, n - 1)
      + (if Fires(prev, sampled, timer, n - 1)
         then [Press(n - 1, Repeating(TimerAt(prev, sampled, timer, n - 1)))]
         else [])
  }

  /** Every press of buttons `0 .. n-1` is for one of those buttons. */
  lemma {:induction false} ScanPressesBelow(prev: seq<bool>, sampled: seq<bool>, timer: nat, n: nat)
    requires n <= |prev| == |sampled|
    ensures forall k :: 0 <= k < |ScanPresses(prev, sampled, timer, n)| ==>
      ScanPresses(prev, sampled, timer, n)[k].button < n
  {
    if n > 0 {
      ScanPressesBelow(prev, sampled, timer, n - 1);
    }
  }

  /** The scanned presses come in strictly increasing button order, and are
      exactly the firing buttons, each with its repeat flag. */
  lemma {:induction false} ScanPressesExact(prev: seq<bool>, sampled: seq<bool>, timer: nat, n: nat)
    requires n <= |prev| == |sampled|
    ensures var ps := ScanPresses(prev, sampled, timer, n);
      forall a, b :: 0 <= a < b < |ps| ==> ps[a].button < ps[b].button
    ensures var ps := ScanPresses(prev, sampled, timer, n);
      forall k :: 0 <= k < |ps| ==>
        && ps[k].button < n
        && Fires(prev, sampled, timer, ps[k].button)
        && ps[k].repeating == Repeating(TimerAt(prev, sampled, timer, ps[k].button))
    ensures var ps := ScanPresses(prev, sampled, timer, n);
      forall i :: 0 <= i < n && Fires(prev, sampled, timer, i) ==>
        exists k :: 0 <= k < |ps| && ps[k].button == i
  {
    if n > 0 {
      ScanPressesExact(prev, sampled, timer, n - 1);
      var ps' := ScanPresses(prev, sampled, timer, n - 1);
      var ps := ScanPresses(prev, sampled, timer, n);
      assert forall k :: 0 <= k < |ps'| ==> ps[k] == ps'[k];
      if Fires(prev, sampled, timer, n - 1) {
        assert ps[|ps'|].button == n - 1;
      }
      ScanPressesBelow(prev, sampled, timer, n - 1);
      forall a, b | 0 <= a < b < |ps| ensures ps[a].button < ps[b].button {
        assert ps[a] == ps'[a];
        assert ps'[a].button < n - 1;
        if b < |ps'| {
          assert ps[b] == ps'[b];
        }
      }
    }
  }

  /** The button loop of mainLoop, as written. It returns the presses in the
      order they are dispatched, the new "was down" array and the new timer;
      `clockTicked` stands for the wall-clock test that advances the timer. */
  method ScanButtons(prev: seq<bool>, sampled: seq<bool>, timer: nat, clockTicked: bool)
    returns (presses: seq<Press>, buttons: seq<bool>, timer': nat)
    requires |prev| == |sampled|
    ensures presses == ScanPresses(prev, sampled, timer, |sampled|)
    ensures buttons == sampled
    ensures timer' == (if prev == sampled then timer else 0) + (if clockTicked && true in sampled then 1 else 0)
    ensures forall a, b :: 0 <= a < b < |presses| ==> presses[a].button < presses[b].button
    ensures forall k :: 0 <= k < |presses| ==>
      && presses[k].button < |sampled|
      && Fires(prev, sampled, timer, presses[k].button)
      && presses[k].repeating == Repeating(TimerAt(prev, sampled, timer, presses[k].button))
    ensures forall i :: 0 <= i < |sampled| && Fires(prev, sampled, timer, i) ==>
      exists k :: 0 <= k < |presses| && presses[k].button == i
  {
    buttons := prev;
    var t := timer;
    var anyButtonPressed := false;
    presses := [];
    var i := 0;
    while i < |sampled|
      invariant 0 <= i <= |sampled|
      invariant |buttons| == |sampled|
      invariant forall j :: 0 <= j < i ==> buttons[j] == sampled[j]
      invariant forall j :: i <= j < |sampled| ==> buttons[j] == prev[j]
      invariant t == TimerAt(prev, sampled, timer, i)
      invariant anyButtonPressed <==> exists j :: 0 <= j < i && sampled[j]
      invariant presses == ScanPresses(prev, sampled, timer, i)
    {
      var down := sampled[i];
      if down {
        anyButtonPressed := true;
        var repeating := Repeating(t);
        if buttons[i] != down || repeating {
          presses := presses + [Press(i, repeating)];
        }
      }
      if buttons[i] != down {
        t := 0;
      }
      buttons := buttons[i := down];
      i := i + 1;
    }
    assert prev == sampled <==> forall j :: 0 <= j < |sampled| ==> prev[j] == sampled[j];
    assert buttons == sampled;
    assert anyButtonPressed <==> true in sampled by {
      if true in sampled {
        var j :| 0 <= j < |sampled| && sampled[j] == true;
      }
    }
    if anyButtonPressed && clockTicked {
      t := t + 1;
    }
    timer' := t;
    ScanPressesExact(prev, sampled, timer, |sampled|);
  }

  /** The presses of one tick, dispatched in order. */
  function ApplyPresses(w: World, s: App, ps: seq<Press>): (r: App)
    requires w.Valid()
    ensures r.stack == s.stack && r.tokens == s.tokens && r.pending == s.pending
    ensures r.focusStack == s.focusStack && r.buttons == s.buttons && r.timer == s.timer
    ensures s.tokens != 0 ==> r == s
    decreases |ps|
  {
    if |ps| == 0 then s
    else ApplyPresses(w, OnButtonPressed(w, s, ps[0].button, ps[0].repeating), ps[1..])
  }

  /** Dispatching one more press after a batch is pressing it in the state the
      batch left: the presses of a tick go through the gate one after another. */
  lemma {:induction false} ApplyPressesSnoc(w: World, s: App, ps: seq<Press>, p: Press)
    requires w.Valid()
    ensures ApplyPresses(w, s, ps + [p]) == OnButtonPressed(w, ApplyPresses(w, s, ps), p.button, p.repeating)
    decreases |ps|
  {
    if |ps| == 0 {
      assert ps + [p] == [p];
      assert [p][1..] == [];
    } else {
      assert (ps + [p])[0] == ps[0];
      assert (ps + [p])[1..] == ps[1..] + [p];
      ApplyPressesSnoc(w, OnButtonPressed(w, s, ps[0].button, ps[0].repeating), ps[1..], p);
    }
  }

  /** On a repeat tick, a button newly pressed behind a held button earlier in
      the scan is reported as a repeat, because the timer is reset only after
      the new button's press is dispatched; the gate then drops it unless the
      focus moved since the previous accepted press. */
  lemma FreshPressReportedAsRepeat(w: World, s: App)
    requires w.Valid()
    requires s.repeatFocus == s.focus
    ensures var prev := [true, false]; var sampled := [true, true];
      && Fires(prev, sampled, 20, 1) && !prev[1]
      && Repeating(TimerAt(prev, sampled, 20, 1))
      && OnButtonPressed(w, s, 1, true) == s
  {
    var prev := [true, false];
    var sampled := [true, true];
    assert forall j :: 0 <= j < 1 ==> prev[j] == sampled[j];
  }

  /** The state after a tick's button scan: the scan's presses dispatched in
      button order, then the new snapshot and the timer as the scan leaves it. */
  function Scanned(w: World, s: App, sampled: seq<bool>, clockTicked: bool): App
    requires w.Valid()
    requires |sampled| == |s.buttons|
  {
    ApplyPresses(w, s, ScanPresses(s.buttons, sampled, s.timer, |sampled|)).(
      buttons := sampled,
      timer := (if s.buttons == sampled then s.timer else 0) + (if clockTicked && true in sampled then 1 else 0))
  }

  /** One tick of mainLoop: the applet check, the button scan with its
      presses dispatched in button order, the held-PLUS exit, then the frame. */
  method Tick(w: World, s: App, appletRunning: bool, sampled: seq<bool>, clockTicked: bool)
    returns (r: App, running: bool, drawn: seq<Drawable>)
    requires w.Valid()
    requires |sampled| == |s.buttons|
    ensures !appletRunning ==> r == Clear(s)
    ensures running <==> appletRunning && !(KeyPlus < |sampled| && sampled[KeyPlus])
    ensures appletRunning && running ==> r == Scanned(w, s, sampled, clockTicked)
    ensures appletRunning && !running ==> r == Clear(Scanned(w, s, sampled, clockTicked))
    ensures !running ==> r.stack == [] && drawn == []
    ensures running ==> r.stack == s.stack && drawn == Frame(w, r)
    ensures r.tokens == s.tokens && r.pending == s.pending
    ensures Inv(s) ==> Inv(r)
  {
    if !appletRunning {
      r := Clear(s);
      running := false;
      drawn := [];
      return;
    }
    var presses, buttons, timer := ScanButtons(s.buttons, sampled, s.timer, clockTicked);
    var s1 := ApplyPresses(w, s, presses);
    var s2 := s1.(buttons := buttons, timer := timer);
    assert s2 == Scanned(w, s, sampled, clockTicked);
    if KeyPlus < |sampled| && sampled[KeyPlus] {
      r := Clear(s2);
      running := false;
      drawn := [];
      return;
    }
    r := s2;
    running := true;
    drawn := Frame(w, r);
  }
}

=== FILE: render.dfy ===
/**
 Frame composition: which views of the stack are drawn and in what order, the
 overlays drawn after them, and the framerate-counter switch.
 */
module Render {
  import opened Views
  import opened AppState

  /** What one frame draws, in order. */
  datatype Drawable = DrawView(view: ViewId) | DrawFramerate | DrawNotifications

  /** Index `k` is where drawing starts: every view above it is translucent,
      and it is opaque unless it is the bottom of the stack. */
  ghost predicate IsRenderStart(w: World, s: App, stack: seq<ViewId>, k: nat)
  {
    && k <= |stack|
    && (|stack| > 0 ==> k < |stack|)
    && (forall j :: k < j < |stack| ==> Translucent(w, s, stack[j]))
    && (k > 0 ==> !Translucent(w, s, stack[k]))
  }

  /** `r` is the part of `stack` a frame must draw: the suffix from a render start. */
  ghost predicate IsRenderSet(w: World, s: App, stack: seq<ViewId>, r: seq<ViewId>)
  {
    |r| <= |stack| && r == stack[|stack| - |r|..] && IsRenderStart(w, s, stack, |stack| - |r|)
  }

  /** Walking down from index `i`, the first view that is opaque, or the bottom. */
  function DrawStartBelow(w: World, s: App, stack: seq<ViewId>, i: nat): (k: nat)
    requires i < |stack|
    ensures k <= i
    ensures forall j :: k < j <= i ==> Translucent(w, s, stack[j])
    ensures k > 0 ==> !Translucent(w, s, stack[k])
    decreases i
  {
    if i == 0 || !Translucent(w, s, stack[i]) then i else DrawStartBelow(w, s, stack, i - 1)
  }

  /** Where a frame starts drawing `stack`. */
  function DrawStart(w: World, s: App, stack: seq<ViewId>): (k: nat)
    ensures IsRenderStart(w, s, stack, k)
  {
    if |stack| == 0 then 0 else DrawStartBelow(w, s, stack, |stack| - 1)
  }

  /** At most one index is a render start, so at most one suffix is a render set. */
  lemma RenderSetUnique(w: World, s: App, stack: seq<ViewId>, r1: seq<ViewId>, r2: seq<ViewId>)
    requires IsRenderSet(w, s, stack, r1) && IsRenderSet(w, s, stack, r2)
    ensures r1 == r2
  {
  }

  /** The views a frame draws, bottom first. */
  function RenderSet(w: World, s: App): (r: seq<ViewId>)
    ensures IsRenderSet(w, s, s.stack, r)
  {
    s.stack[DrawStart(w, s, s.stack)..]
  }

  /** The drawing part of `frame`, as written: collect views from the top down
      until one is not translucent, then draw the collection in reverse. */
  method CollectViewsToDraw(w: World, s: App) returns (drawn: seq<ViewId>)
    ensures IsRenderSet(w, s, s.stack, drawn)
    ensures drawn == RenderSet(w, s)
  {
    var n := |s.stack|;
    var toDraw: seq<ViewId> := [];
    var i := 0;
    while i < n
      invariant 0 <= i <= n
      invariant |toDraw| == i
      invariant forall k :: 0 <= k < i ==> toDraw[k] == s.stack[n - 1 - k]
      invariant forall j :: n - i <= j < n ==> Translucent(w, s, s.stack[j])
    {
      var view := s.stack[n - 1 - i];
      toDraw := toDraw + [view];
      if !Translucent(w, s, view) {
        break;
      }
      i := i + 1;
    }
    // Either every view was collected, or the last one collected is opaque.
    ghost var start := n - |toDraw|;
    assert IsRenderStart(w, s, s.stack, start);
    drawn := [];
    var j := 0;
    while j < |toDraw|
      invariant 0 <= j <= |toDraw|
      invariant |drawn| == j
      invariant forall k :: 0 <= k < j ==> drawn[k] == s.stack[start + k]
    {
      drawn := drawn + [toDraw[|toDraw| - 1 - j]];
      j := j + 1;
    }
    assert drawn == s.stack[start..];
    RenderSetUnique(w, s, s.stack, drawn, RenderSet(w, s));
  }

  function DrawViews(vs: seq<ViewId>): (r: seq<Drawable>)
    ensures |r| == |vs|
    ensures forall i :: 0 <= i < |vs| ==> r[i] == DrawView(vs[i])
  {
    seq(|vs|, i requires 0 <= i < |vs| => DrawView(vs[i]))
  }

  /** The overlays drawn after the views: the counter when present, then notifications. */
  function Overlays(s: App): seq<Drawable>
  {
    (if s.framerate then [DrawFramerate] else []) + [DrawNotifications]
  }

  /** The draw sequence of one frame: visible views bottom first, then the overlays. */
  function Frame(w: World, s: App): seq<Drawable>
  {
    DrawViews(RenderSet(w, s)) + Overlays(s)
  }

  /** The draw sequence of one frame splits into the render set and the overlays. */
  lemma FrameSplit(w: World, s: App)
    ensures var f := Frame(w, s); var vs := RenderSet(w, s);
      |f| == |vs| + |Overlays(s)|
      && (forall i :: 0 <= i < |vs| ==> f[i] == DrawView(vs[i]))
      && (forall i :: |vs| <= i < |f| ==> f[i] == Overlays(s)[i - |vs|])
  {
  }

  /** Overlays come after every view and notifications come last; views
      appear bottom first, exactly the render set, which includes the top of
      the stack; the counter is drawn exactly when present. */
  lemma FrameOrder(w: World, s: App)
    ensures var f := Frame(w, s);
      |f| > 0 && Last(f) == DrawNotifications
    ensures var f := Frame(w, s); var vs := RenderSet(w, s);
      forall i :: 0 <= i < |f| ==> (f[i].DrawView? <==> i < |vs|)
    ensures var f := Frame(w, s); var vs := RenderSet(w, s);
      |vs| <= |f| && forall i :: 0 <= i < |vs| ==> f[i] == DrawView(vs[i])
    ensures DrawFramerate in Frame(w, s) <==> s.framerate
    ensures |s.stack| > 0 ==> DrawView(Last(s.stack)) in Frame(w, s)
  {
    FrameSplit(w, s);
    var f := Frame(w, s);
    var vs := RenderSet(w, s);
    var o := Overlays(s);
    assert forall i :: 0 <= i < |o| ==> !o[i].DrawView?;
    if s.framerate {
      assert f[|vs|] == DrawFramerate;
    } else {
      assert DrawFramerate !in o;
    }
    if |s.stack| > 0 {
      assert f[|vs| - 1] == DrawView(Last(s.stack));
    }
  }

  /** The render set depends on nothing but the stack and which views are forced translucent. */
  lemma RenderSetDependsOnStackOnly(w: World, s: App, t: App)
    requires s.stack == t.stack && s.forced == t.forced
    ensures RenderSet(w, s) == RenderSet(w, t)
  {
    assert IsRenderSet(w, s, s.stack, RenderSet(w, t));
    RenderSetUnique(w, s, s.stack, RenderSet(w, s), RenderSet(w, t));
  }

  /** A stack `[A, B, C]` with only `A` opaque draws all three, A first; with
      `A` and `B` opaque it draws B then C. */
  lemma RenderSetExamples(w: World, s: App, a: ViewId, b: ViewId, c: ViewId)
    requires s.stack == [a, b, c]
    requires !Translucent(w, s, a) && Translucent(w, s, c)
    ensures Translucent(w, s, b) ==> RenderSet(w, s) == [a, b, c]
    ensures !Translucent(w, s, b) ==> RenderSet(w, s) == [b, c]
  {
    var k := DrawStart(w, s, s.stack);
    assert s.stack[1] == b && s.stack[2] == c;
    if Translucent(w, s, b) {
      assert k == 0;
      assert s.stack[0..] == [a, b, c];
    } else {
      assert k == 1;
      assert s.stack[1..] == [b, c];
    }
  }

  /** setDisplayFramerate: the counter is present afterwards exactly when requested. */
  function SetDisplayFramerate(s: App, enabled: bool): (r: App)
    ensures r.framerate == enabled
    ensures r == s.(framerate := r.framerate)
  {
    if !s.framerate && enabled then s.(framerate := true)
    else if s.framerate && !enabled then s.(framerate := false)
    else s
  }

  /** toggleFramerateDisplay: the counter's presence flips, and nothing else changes. */
  function ToggleFramerateDisplay(s: App): (r: App)
    ensures r.framerate != s.framerate
    ensures r == s.(framerate := r.framerate)
  {
    SetDisplayFramerate(s, !s.framerate)
  }

  /** Toggling twice restores the state, and each toggle adds or removes the counter from the frame. */
  lemma ToggleFramerateTwice(w: World, s: App)
    ensures ToggleFramerateDisplay(ToggleFramerateDisplay(s)) == s
    ensures DrawFramerate in Frame(w, ToggleFramerateDisplay(s)) <==> DrawFramerate !in Frame(w, s)
  {
    FrameOrder(w, s);
    FrameOrder(w, ToggleFramerateDisplay(s));
  }
}

=== FILE: stack.dfy ===
/**
 The view stack and its transitions: `pushView`, `popView`, `clear`, and the
 firing of the animation completions those schedule. Animations are not
 simulated: each show/hide leaves a `Pending` completion in the state and
 `Fire` runs any one of them.
 */
module Stack {
  import opened Views
  import opened AppState
  import opened Focus

  /** pushView's fade-out decision: there is a previous top, and neither it
      nor the new view is translucent. */
  predicate FadesOut(w: World, s: App, v: ViewId)
  {
    |s.stack| > 0 && !Translucent(w, s, Last(s.stack)) && !Translucent(w, s, v)
  }

  /** The completions pushView schedules, by branch: a plain show; in a fade
      without waiting, the show and the hide of the old top together; in a
      waiting fade, only the hide, whose completion shows the new top. */
  function PushPending(w: World, s: App, v: ViewId, anim: Animation): seq<Pending>
  {
    if !FadesOut(w, s, v) then [Pending(v, false, Unblock)]
    else if anim != Fade then [Pending(v, false, Unblock), Pending(Last(s.stack), true, RevealTop(false))]
    else [Pending(Last(s.stack), true, RevealTop(true))]
  }

  /** Whichever branch pushView takes, its completions owe exactly one unblock. */
  lemma PushPendingOwesOne(w: World, s: App, v: ViewId, anim: Animation)
    ensures TotalOwed(PushPending(w, s, v, anim)) == 1
  {
    var showNew := Pending(v, false, Unblock);
    if !FadesOut(w, s, v) {
      TotalOwedShort(showNew, showNew);
    } else if anim != Fade {
      TotalOwedShort(showNew, Pending(Last(s.stack), true, RevealTop(false)));
    } else {
      var hideOld := Pending(Last(s.stack), true, RevealTop(true));
      TotalOwedShort(hideOld, hideOld);
    }
  }

  /** The animation part of pushView: with a fade-out the new view is forced
      translucent and the old top hidden, the new view shown at once unless the
      animation waits; otherwise the new view is simply shown. */
  function StartPushAnimations(w: World, s: App, v: ViewId, anim: Animation): (r: App)
    ensures r.pending == s.pending + PushPending(w, s, v, anim)
    ensures TotalOwed(r.pending) == TotalOwed(s.pending) + 1
    ensures r == s.(forced := r.forced, hidden := r.hidden, pending := r.pending)
    ensures FadesOut(w, s, v) ==> v in r.forced && Last(s.stack) in r.hidden
    ensures !FadesOut(w, s, v) ==> v !in r.hidden && r.forced == s.forced
    ensures FadesOut(w, s, v) && anim != Fade && v != Last(s.stack) ==> v !in r.hidden
  {
    var wait := anim == Fade;
    var r :=
      if FadesOut(w, s, v) then
        var t := s.(forced := s.forced + {v});
        var t' := if !wait then Show(t, v, Unblock) else t;
        Hide(t', Last(s.stack), RevealTop(wait))
      else Show(s, v, Unblock);
    TotalOwedAppend(s.pending, PushPending(w, s, v, anim));
    PushPendingOwesOne(w, s, v, anim);
    r
  }

  /** pushView. The source reads the current focus whenever the stack is
      non-empty, so it must then be non-null. */
  function PushView(w: World, s: App, v: ViewId, anim: Animation): (r: App)
    requires |s.stack| > 0 ==> s.focus.Some?
    ensures r.stack == s.stack + [v]
    ensures r.tokens == s.tokens + 1
    ensures r.pending == s.pending + PushPending(w, s, v, anim)
    ensures TotalOwed(r.pending) == TotalOwed(s.pending) + 1
    ensures r.focusStack == if |s.stack| > 0 then s.focusStack + [s.focus.value] else s.focusStack
    ensures r.focus == Resolve(w, w.defaultFocus(v))
    ensures ActionsOf(w, r, v) == ActionsOf(w, s, v) + [ExitAction, FramerateAction]
    ensures FadesOut(w, s, v) ==> v in r.forced && Last(s.stack) in r.hidden
    ensures !FadesOut(w, s, v) ==> v !in r.hidden
    ensures FadesOut(w, s, v) && anim != Fade && v != Last(s.stack) ==> v !in r.hidden
    ensures r == s.(stack := r.stack, tokens := r.tokens, focus := r.focus, focusStack := r.focusStack,
                    forced := r.forced, hidden := r.hidden, registered := r.registered,
                    pending := r.pending, events := r.events)
  {
    var own := if v in s.registered then s.registered[v] else [];
    var s1 := s.(tokens := BlockInputs(s.tokens), registered := s.registered[v := own + [ExitAction, FramerateAction]]);
    var s2 := StartPushAnimations(w, s, v, anim);
    var s3 := s1.(forced := s2.forced, hidden := s2.hidden, pending := s2.pending);
    var s4 := if |s.stack| > 0 then s3.(focusStack := s3.focusStack + [s.focus.value]) else s3;
    var s5 := s4.(events := s4.events + [WillAppear(v)]);
    var s6 := GiveFocus(w, s5, w.defaultFocus(v));
    s6.(stack := s6.stack + [v])
  }

  /** What pushView does besides the stack and the counter: the new view alone
      is forced translucent, and only when the old top fades out; the hidden
      flags follow the shows and hides it starts; only the new view's actions
      grow; it announces the view, then moves the focus. */
  lemma PushViewEffects(w: World, s: App, v: ViewId, anim: Animation)
    requires |s.stack| > 0 ==> s.focus.Some?
    ensures var r := PushView(w, s, v, anim);
      r.forced == if FadesOut(w, s, v) then s.forced + {v} else s.forced
    ensures var r := PushView(w, s, v, anim);
      r.hidden == if !FadesOut(w, s, v) then s.hidden - {v}
                  else s.hidden - (if anim != Fade then {v} else {}) + {Last(s.stack)}
    ensures var r := PushView(w, s, v, anim);
      forall u :: u != v ==> ActionsOf(w, r, u) == ActionsOf(w, s, u)
    ensures var r := PushView(w, s, v, anim);
      r.events == s.events + [WillAppear(v)] + FocusEvents(s.focus, r.focus)
  {
  }

  /** popView. With at most one view on the stack nothing happens. Otherwise
      inputs are blocked, the top is hidden (its completion removes a view and
      unblocks), the view below is shown at once unless the animation waits,
      and the top of the focus stack, if any, is given focus and popped now. */
  function PopView(w: World, s: App, anim: Animation, cb: nat): (r: App)
    ensures |s.stack| <= 1 ==> r == s
    ensures |s.stack| > 1 ==>
      && r.stack == s.stack
      && r.tokens == s.tokens + 1
      && r.pending == s.pending + [Pending(Last(s.stack), true, RemoveTop(Last(s.stack), anim == Fade, cb))]
                      + (if anim != Fade then [Pending(s.stack[|s.stack| - 2], false, RunCallback(cb))] else [])
      && TotalOwed(r.pending) == TotalOwed(s.pending) + 1
      && Last(s.stack) in r.forced
    ensures |s.stack| > 1 && |s.focusStack| > 0 ==>
      r.focusStack == s.focusStack[..|s.focusStack| - 1] && r.focus == Resolve(w, Some(Last(s.focusStack)))
    ensures |s.stack| > 1 && |s.focusStack| == 0 ==> r.focusStack == [] && r.focus == s.focus
    // The top is forced translucent and hidden, the view below shown at once
    // unless the animation waits, and the calls come in source order.
    ensures |s.stack| > 1 ==>
      && r.forced == s.forced + {Last(s.stack)}
      && r.hidden == s.hidden + {Last(s.stack)} - (if anim != Fade then {s.stack[|s.stack| - 2]} else {})
      && r.events == s.events + [WillDisappear(Last(s.stack))]
                     + (if anim != Fade then [WillAppear(s.stack[|s.stack| - 2])] else [])
                     + FocusEvents(s.focus, r.focus)
    ensures r == s.(tokens := r.tokens, focus := r.focus, focusStack := r.focusStack,
                    forced := r.forced, hidden := r.hidden, pending := r.pending, events := r.events)
  {
    if |s.stack| <= 1 then s
    else
      var last := Last(s.stack);
      var wait := anim == Fade;
      var s1 := s.(tokens := BlockInputs(s.tokens), events := s.events + [WillDisappear(last)], forced := s.forced + {last});
      var s2 := Hide(s1, last, RemoveTop(last, wait, cb));
      var s3 :=
        if !wait then
          var toShow := s.stack[|s.stack| - 2];
          Show(s2.(events := s2.events + [WillAppear(toShow)]), toShow, RunCallback(cb))
        else s2;
      var added := [Pending(last, true, RemoveTop(last, wait, cb))]
                   + (if !wait then [Pending(s.stack[|s.stack| - 2], false, RunCallback(cb))] else []);
      assert s3.pending == s.pending + added;
      assert s3.forced == s.forced + {last};
      assert s3.hidden == s.hidden + {last} - (if !wait then {s.stack[|s.stack| - 2]} else {});
      assert s3.events == s.events + [WillDisappear(last)]
                          + (if !wait then [WillAppear(s.stack[|s.stack| - 2])] else []);
      TotalOwedAppend(s.pending, added);
      TotalOwedShort(added[0], Pending(s.stack[|s.stack| - 2], false, RunCallback(cb)));
      if |s3.focusStack| > 0 then
        var s4 := GiveFocus(w, s3, Some(Last(s3.focusStack)));
        s4.(focusStack := s4.focusStack[..|s4.focusStack| - 1])
      else s3
  }

  /** The calls `clear` makes: for each view bottom first, "will disappear" then its destruction. */
  function TeardownEvents(vs: seq<ViewId>): (r: seq<Event>)
    ensures |r| == 2 * |vs|
    ensures forall i :: 0 <= i < |vs| ==> r[2 * i] == WillDisappear(vs[i]) && r[2 * i + 1] == Destroyed(vs[i])
  {
    if |vs| == 0 then []
    else
      var rest := TeardownEvents(vs[1..]);
      assert forall i :: 1 <= i < |vs| ==> vs[i] == vs[1..][i - 1];
      [WillDisappear(vs[0]), Destroyed(vs[0])] + rest
  }

  /** clear: every view is told it will disappear and destroyed, and the stack is emptied. */
  function Clear(s: App): (r: App)
    ensures r.stack == []
    ensures r.events == s.events + TeardownEvents(s.stack)
    ensures r == s.(stack := [], events := r.events)
  {
    s.(stack := [], events := s.events + TeardownEvents(s.stack))
  }

  /** A pending completion may fire unless it needs the top of an empty stack,
      which the source indexes without a check. */
  predicate CanFire(s: App, k: nat)
  {
    k < |s.pending| && (s.pending[k].onDone.RevealTop? || s.pending[k].onDone.RemoveTop? ==> |s.stack| > 0)
  }

  /** The animation of pending entry `k` ends and its completion runs. */
  function Fire(w: World, s: App, k: nat): (r: App)
    requires CanFire(s, k)
    ensures s.pending[k].onDone.RemoveTop? ==>
      r.stack == s.stack[..|s.stack| - 1] && r.tokens == UnblockInputs(s.tokens)
    ensures s.pending[k].onDone.Unblock? ==> r.stack == s.stack && r.tokens == UnblockInputs(s.tokens)
    ensures s.pending[k].onDone.RevealTop? || s.pending[k].onDone.RunCallback? ==>
      r.stack == s.stack && r.tokens == s.tokens
    ensures r.focus == s.focus && r.focusStack == s.focusStack
    ensures |r.pending| >= |s.pending| - 1 && r.pending[..|s.pending| - 1] == s.pending[..k] + s.pending[k + 1..]
    ensures r == s.(stack := r.stack, tokens := r.tokens, forced := r.forced, hidden := r.hidden,
                    pending := r.pending, events := r.events)
    // A plain show completion only unblocks; a callback completion only runs the callback.
    ensures s.pending[k].onDone.Unblock? ==>
      r.forced == s.forced && r.hidden == s.hidden && r.events == s.events
      && r.pending == s.pending[..k] + s.pending[k + 1..]
    ensures s.pending[k].onDone.RunCallback? ==>
      r.forced == s.forced && r.hidden == s.hidden && r.events == s.events + [CallbackRun(s.pending[k].onDone.cb)]
      && r.pending == s.pending[..k] + s.pending[k + 1..]
    // A completed hide or fade-in stops forcing its view translucent, and no other.
    ensures s.pending[k].onDone.RevealTop? ==> Last(s.stack) !in r.forced
    ensures s.pending[k].onDone.RevealTop? ==> r.forced == s.forced - {Last(s.stack)} && r.events == s.events
    ensures s.pending[k].onDone.RemoveTop? ==> s.pending[k].onDone.last !in r.forced
    ensures s.pending[k].onDone.RemoveTop? ==> r.forced == s.forced - {s.pending[k].onDone.last}
    // The old top's hide in a waiting push shows the new top only then.
    ensures s.pending[k].onDone.RevealTop? ==>
      if s.pending[k].onDone.wait
      then Last(s.stack) !in r.hidden
           && r.pending == s.pending[..k] + s.pending[k + 1..] + [Pending(Last(s.stack), false, Unblock)]
      else r.hidden == s.hidden && r.pending == s.pending[..k] + s.pending[k + 1..]
    // A removal without waiting, or of the last view, just destroys the view.
    ensures s.pending[k].onDone.RemoveTop? && (!s.pending[k].onDone.wait || |s.stack| == 1) ==>
      r.events == s.events + [Destroyed(s.pending[k].onDone.last)]
      && r.hidden == s.hidden
      && r.pending == s.pending[..k] + s.pending[k + 1..]
    // A waiting removal then shows the new top if it is hidden, else runs the callback.
    ensures s.pending[k].onDone.RemoveTop? && s.pending[k].onDone.wait && |s.stack| > 1 ==>
      var last := s.pending[k].onDone.last;
      var cb := s.pending[k].onDone.cb;
      var nt := s.stack[|s.stack| - 2];
      if nt in s.hidden
      then r.events == s.events + [Destroyed(last), WillAppear(nt)] && nt !in r.hidden
           && r.hidden == s.hidden - {nt}
           && r.pending == s.pending[..k] + s.pending[k + 1..] + [Pending(nt, false, RunCallback(cb))]
      else r.events == s.events + [Destroyed(last), CallbackRun(cb)]
           && r.hidden == s.hidden
           && r.pending == s.pending[..k] + s.pending[k + 1..]
  {
    var done := s.pending[k].onDone;
    var s0 := s.(pending := s.pending[..k] + s.pending[k + 1..]);
    match done
    case Unblock => s0.(tokens := UnblockInputs(s0.tokens))
    case RunCallback(cb) => s0.(events := s0.events + [CallbackRun(cb)])
    case RevealTop(wait) =>
      var top := Last(s0.stack);
      var s1 := s0.(forced := s0.forced - {top});
      if wait then Show(s1, top, Unblock) else s1
    case RemoveTop(last, wait, cb) =>
      var s1 := s0.(forced := s0.forced - {last}, stack := s0.stack[..|s0.stack| - 1],
                    events := s0.events + [Destroyed(last)]);
      var s2 :=
        if |s1.stack| > 0 && wait then
          var newLast := Last(s1.stack);
          if newLast in s1.hidden then Show(s1.(events := s1.events + [WillAppear(newLast)]), newLast, RunCallback(cb))
          else s1.(events := s1.events + [CallbackRun(cb)])
        else s1;
      s2.(tokens := UnblockInputs(s2.tokens))
  }

  /** Every branch of pushView eventually unblocks exactly once: the counter
      keeps matching the unblocks owed. */
  lemma PushKeepsInv(w: World, s: App, v: ViewId, anim: Animation)
    requires Inv(s) && (|s.stack| > 0 ==> s.focus.Some?)
    ensures Inv(PushView(w, s, v, anim))
  {
  }

  lemma PopKeepsInv(w: World, s: App, anim: Animation, cb: nat)
    requires Inv(s)
    ensures Inv(PopView(w, s, anim, cb))
  {
  }

  /** Firing a completion keeps the counter matching the unblocks owed, and
      an unblocking completion always finds the counter positive. */
  lemma FireKeepsInv(w: World, s: App, k: nat)
    requires Inv(s) && CanFire(s, k)
    ensures Inv(Fire(w, s, k))
    ensures s.pending[k].onDone.Unblock? || s.pending[k].onDone.RemoveTop? ==> Fire(w, s, k).tokens + 1 == s.tokens
  {
    var p := s.pending;
    var rest := p[..k] + p[k + 1..];
    TotalOwedRemove(p, k);
    match p[k].onDone
    case Unblock =>
    case RunCallback(cb) =>
    case RevealTop(wait) =>
      if wait {
        TotalOwedAppend(rest, [Pending(Last(s.stack), false, Unblock)]);
      }
    case RemoveTop(last, wait, cb) =>
      var n := |s.stack| - 1;
      if n > 0 && wait && Last(s.stack[..n]) in s.hidden {
        TotalOwedAppend(rest, [Pending(Last(s.stack[..n]), false, RunCallback(cb))]);
      }
  }

  /** Pushing a view and popping it again gives the focus stack back at once
      and, when the pop's hide completes, the view stack. */
  lemma PushThenPopRestores(w: World, s: App, v: ViewId, anim: Animation, anim': Animation, cb: nat)
    requires |s.stack| > 0 && s.focus.Some?
    ensures var s1 := PushView(w, s, v, anim);
      var s2 := PopView(w, s1, anim', cb);
      && s2.focusStack == s.focusStack
      && s2.focus == Resolve(w, s.focus)
      && s2.pending[|s1.pending|].onDone == RemoveTop(v, anim' == Fade, cb)
      && CanFire(s2, |s1.pending|)
      && Fire(w, s2, |s1.pending|).stack == s.stack
  {
    var s1 := PushView(w, s, v, anim);
    assert s1.focusStack[..|s1.focusStack| - 1] == s.focusStack;
    assert (s.stack + [v])[..|s.stack|] == s.stack;
  }

  /** A fading pop on a stack of two or more leaves the stack as it is and
      schedules the removal of the top. */
  lemma FadingPopDefers(w: World, s: App, cb: nat)
    requires |s.stack| > 1
    ensures PopView(w, s, Fade, cb).stack == s.stack
    ensures PopView(w, s, Fade, cb).pending == s.pending + [Pending(Last(s.stack), true, RemoveTop(Last(s.stack), true, cb))]
  {
  }

  /** A removal completion drops the top view, and the entries before it keep their places. */
  lemma RemovalDropsTop(w: World, s: App, k: nat)
    requires CanFire(s, k) && s.pending[k].onDone.RemoveTop?
    ensures Fire(w, s, k).stack == s.stack[..|s.stack| - 1]
    ensures forall j :: 0 <= j < k ==> Fire(w, s, k).pending[j] == s.pending[j]
  {
    var r := Fire(w, s, k);
    assert r.pending[..|s.pending| - 1] == s.pending[..k] + s.pending[k + 1..];
    forall j | 0 <= j < k ensures r.pending[j] == s.pending[j] {
      assert r.pending[j] == r.pending[..|s.pending| - 1][j];
    }
  }

  /** popView checks the stack size when called but removes the top only when
      the hide completes, so two pops issued on a two-view stack before either
      completes remove the root too. */
  lemma OverlappingPopsRemoveRoot(w: World, s: App)
    requires |s.stack| == 2
    ensures var s1 := PopView(w, PopView(w, s, Fade, 0), Fade, 1);
      var i := |s.pending|;
      && CanFire(s1, i + 1) && s1.pending[i + 1].onDone.RemoveTop?
      && CanFire(Fire(w, s1, i + 1), i) && Fire(w, s1, i + 1).pending[i].onDone.RemoveTop?
      && |Fire(w, Fire(w, s1, i + 1), i).stack| == 0
  {
    var i := |s.pending|;
    var s0 := PopView(w, s, Fade, 0);
    FadingPopDefers(w, s, 0);
    var s1 := PopView(w, s0, Fade, 1);
    FadingPopDefers(w, s0, 1);
    assert s1.pending[i] == s0.pending[i];
    RemovalDropsTop(w, s1, i + 1);
    var t := Fire(w, s1, i + 1);
    RemovalDropsTop(w, t, i);
  }
}

=== FILE: state.dfy ===
/**
 The application's process-wide state as one immutable record, the recorded
 side effects (events and pending animation completions), and the
 input-blocking token counter.
 */
module AppState {
  import opened Views

  /** What a pending show/hide completion runs when its animation ends. */
  datatype Completion =
    | Unblock                                       // pushView's show callback
    | RevealTop(wait: bool)                         // hide callback of the old top in a fading pushView
    | RemoveTop(last: ViewId, wait: bool, cb: nat)  // popView's hide callback
    | RunCallback(cb: nat)                          // popView's caller-supplied callback, handed to show()

  /** A show (`hiding == false`) or hide animation started on `view`, not yet completed. */
  datatype Pending = Pending(view: ViewId, hiding: bool, onDone: Completion)

  /** Calls into views and observers, recorded in the order they happen. */
  datatype Event =
    | FocusLost(view: ViewId)
    | FocusGained(view: ViewId)
    | FocusChanged(focus: Option<ViewId>)
    | Shake(view: ViewId, dir: Direction)
    | WillAppear(view: ViewId)
    | WillDisappear(view: ViewId)
    | Destroyed(view: ViewId)
    | ListenerRun(view: ViewId, index: nat)
    | CallbackRun(cb: nat)

  datatype App = App(
    stack: seq<ViewId>,                      // view stack, top last
    focus: Option<ViewId>,                   // current focus
    focusStack: seq<ViewId>,                 // focus return stack, top last
    tokens: nat,                             // input-blocking token counter
    buttons: seq<bool>,                      // per-button "was down" snapshot
    timer: nat,                              // shared repeat timer
    repeatFocus: Option<ViewId>,             // focus at the previous accepted press
    framerate: bool,                         // framerate counter present
    forced: set<ViewId>,                     // views forced translucent
    hidden: set<ViewId>,                     // views whose last animation was a hide
    registered: map<ViewId, seq<Action>>,    // actions added by pushView
    pending: seq<Pending>,                   // animations whose completion has not fired
    events: seq<Event>)

  /** Effective translucency: the view's own flag, or forced during a transition. */
  predicate Translucent(w: World, s: App, v: ViewId)
  {
    w.translucent(v) || v in s.forced
  }

  /** A view's action list: its own actions, then those registered when it was pushed. */
  function ActionsOf(w: World, s: App, v: ViewId): seq<Action>
  {
    w.actions(v) + (if v in s.registered then s.registered[v] else [])
  }

  function BlockInputs(tokens: nat): (r: nat)
    ensures r == tokens + 1
  {
    tokens + 1
  }

  function UnblockInputs(tokens: nat): (r: nat)
    ensures r <= tokens
    ensures tokens > 0 ==> r < tokens
  {
    if tokens > 0 then tokens - 1 else 0
  }

  /** Unblocking undoes exactly one block; unblocking an unblocked counter is a no-op. */
  lemma UnblockUndoesBlock(tokens: nat)
    ensures UnblockInputs(BlockInputs(tokens)) == tokens
    ensures UnblockInputs(0) == 0
    ensures BlockInputs(tokens) == tokens + 1
  {
  }

  /** Starts a show animation: the view is no longer hidden and its completion is pending. */
  function Show(s: App, v: ViewId, onDone: Completion): (r: App)
    ensures v !in r.hidden && r.pending == s.pending + [Pending(v, false, onDone)]
  {
    s.(hidden := s.hidden - {v}, pending := s.pending + [Pending(v, false, onDone)])
  }

  /** Starts a hide animation: the view is hidden and its completion is pending. */
  function Hide(s: App, v: ViewId, onDone: Completion): (r: App)
    ensures v in r.hidden && r.pending == s.pending + [Pending(v, true, onDone)]
  {
    s.(hidden := s.hidden + {v}, pending := s.pending + [Pending(v, true, onDone)])
  }

  /** How many unblocks a completion still owes, counting those it schedules in turn. */
  function Owed(c: Completion): nat
  {
    match c
    case Unblock => 1
    case RevealTop(wait) => if wait then 1 else 0
    case RemoveTop(_, _, _) => 1
    case RunCallback(_) => 0
  }

  function TotalOwed(p: seq<Pending>): nat
  {
    if |p| == 0 then 0 else Owed(p[0].onDone) + TotalOwed(p[1..])
  }

  lemma {:induction false} TotalOwedAppend(a: seq<Pending>, b: seq<Pending>)
    ensures TotalOwed(a + b) == TotalOwed(a) + TotalOwed(b)
  {
    if |a| == 0 {
      assert a + b == b;
    } else {
      assert (a + b)[1..] == a[1..] + b;
      TotalOwedAppend(a[1..], b);
    }
  }

  lemma TotalOwedShort(a: Pending, b: Pending)
    ensures TotalOwed([a]) == Owed(a.onDone)
    ensures TotalOwed([a, b]) == Owed(a.onDone) + Owed(b.onDone)
  {
    assert [a][1..] == [];
    assert [a, b][1..] == [b];
    assert [b][1..] == [];
    assert TotalOwed([b]) == Owed(b.onDone);
  }

  lemma TotalOwedRemove(p: seq<Pending>, k: nat)
    requires k < |p|
    ensures TotalOwed(p) == TotalOwed(p[..k] + p[k + 1..]) + Owed(p[k].onDone)
  {
    var a, b := p[..k], p[k + 1..];
    assert p[..k + 1] == a + [p[k]];
    assert p == p[..k + 1] + b;
    calc {
      TotalOwed(p);
      { TotalOwedAppend(p[..k + 1], b); }
      TotalOwed(a + [p[k]]) + TotalOwed(b);
      { TotalOwedAppend(a, [p[k]]); TotalOwedShort(p[k], p[k]); }
      TotalOwed(a) + Owed(p[k].onDone) + TotalOwed(b);
      { TotalOwedAppend(a, b); }
      TotalOwed(a + b) + Owed(p[k].onDone);
    }
  }

  /** The token counter equals the unblocks still owed by pending transitions. */
  predicate Inv(s: App)
  {
    s.tokens == TotalOwed(s.pending)
  }

  /** The state after initialisation, with `n` buttons all released. */
  function Initial(n: nat): (s: App)
    ensures Inv(s) && |s.stack| == 0 && s.tokens == 0 && |s.buttons| == n
  {
    App([], None, [], 0, seq(n, _ => false), 0, None, false, {}, {}, map[], [], [])
  }

  /** Once every transition has completed, inputs are unblocked again. */
  lemma SettledMeansUnblocked(s: App)
    requires Inv(s) && |s.pending| == 0
    ensures s.tokens == 0
  {
  }
}

=== FILE: views.dfy ===
/**
 The parts of a view that the application core only queries. A view is an
 abstract identifier; the view tree's parent links, translucency, action
 lists, default-focus resolution and directional focus search belong to the
 View class, whose bodies are outside this model, so they are supplied as an
 oracle record `World`.
 */
module Views {

  datatype Option<T> = None | Some(value: T)

  type ViewId = nat

  /** A gamepad button, written as the bit index `i` of its mask `1 << i`. */
  type Button = nat

  // Bit positions of the keys the core refers to by name (the platform's HID key masks).
  const KeyPlus: Button := 10
  const KeyMinus: Button := 11
  const KeyDLeft: Button := 12
  const KeyDUp: Button := 13
  const KeyDRight: Button := 14
  const KeyDDown: Button := 15

  datatype Direction = Up | Down | Left | Right

  datatype Animation = Fade | SlideLeft | SlideRight

  /** What invoking an action's listener does. `Returns(b)` stands for an
      application listener whose only visible outcome is its "consumed" answer;
      the two system listeners registered on every pushed view are explicit. */
  datatype Listener = Returns(consumed: bool) | Quit | ToggleFramerate

  datatype Action = Action(key: Button, available: bool, listener: Listener)

  /** The "consumed" answer a listener gives. */
  function Consumes(l: Listener): bool
  {
    match l
    case Returns(b) => b
    case Quit => true
    case ToggleFramerate => true
  }

  /** The two actions every pushed view receives: Exit on PLUS, the framerate toggle on MINUS. */
  const ExitAction: Action := Action(KeyPlus, true, Quit)
  const FramerateAction: Action := Action(KeyMinus, true, ToggleFramerate)

  /** The oracles. `depth` is a rank witnessing that the parent links form a forest. */
  datatype World = World(
    parent: ViewId -> Option<ViewId>,
    depth: ViewId -> nat,
    translucent: ViewId -> bool,
    actions: ViewId -> seq<Action>,
    defaultFocus: ViewId -> Option<ViewId>,
    nextFocus: (ViewId, Direction, ViewId) -> Option<ViewId>)
  {
    /** Parent links strictly decrease the rank, so every ancestor walk ends. */
    ghost predicate Valid()
    {
      forall v :: parent(v).Some? ==> depth(parent(v).value) < depth(v)
    }
  }

  /** The view `v` followed by its ancestors, ending at a view without a parent. */
  function Chain(w: World, v: ViewId): (c: seq<ViewId>)
    requires w.Valid()
    ensures |c| > 0 && c[0] == v
    ensures forall i :: 0 <= i < |c| - 1 ==> w.parent(c[i]) == Some(c[i + 1])
    ensures w.parent(c[|c| - 1]).None?
    decreases w.depth(v)
  {
    match w.parent(v)
    case None => [v]
    case Some(p) => [v] + Chain(w, p)
  }

  function Last<T>(s: seq<T>): T
    requires |s| > 0
  {
    s[|s| - 1]
  }
}
